=== FILE: README.md ===
# Catalog authorization and state transitions, in Dafny

This project models the core of a small multi-user catalog web application
(Flask + SQLAlchemy): users sign in through an external OAuth provider, then
create categories and items; anyone may browse. What is modelled is the part
with rules worth proving: the login gate, federated find-or-create sign-in,
session binding, item ownership, the rule that a non-empty category cannot be
deleted, form validation, and the JSON projections of the records.

Each route handler becomes a pure transition: it takes a store (three tables
as maps from primary key to record), a session (anonymous or bound to a user
id), the request verb and form fields, and returns a new store, a new session
and an outcome (a redirect with a notice, a rendered page with its errors
map, or an uncaught server error). Nothing else is state.

Files (one module each):

- `wrappers.dfy` — `Option` and `Result`.
- `keys.dfy` — what the storage layer does with primary keys: `.first()` is the
  least matching key, `.one()` needs exactly one match, an insert gets the
  largest key plus one, tables list in ascending key order.
- `database.dfy` — `User`, `Category`, `Item`, the store, its invariant
  (`social_id` unique, `slug` unique, every reference resolves), queries and
  constraint-checked inserts.
- `session.dfy` — `load_user`, the current caller, `login_user`/`logout_user`.
- `forms.dfy` — the errors map of the category form and of the item form.
- `serialize.dfy` — the `serialize` projections and `/catalog.json`.
- `handlers.dfy` — one function per route handler.
- `routes.dfy` — the URL table as one transition `Handle` over a `Request`.
- `properties.dfy` — lemmas relating the handlers: gates, "nothing else
  changes", find-or-create idempotence, and a worked scenario.

Outside inputs are parameters: the `slugify` library function is an arbitrary
function `string -> string` (nothing is assumed about it), the set of
registered provider names stands for the provider registry, the wall clock is
an integer `now`, and the OAuth handshake's result is an input
`Option<Identity>` whose `None` stands for a callback with no `social_id`.

Behaviour of the code worth knowing before reading the contracts:

- `deleteCatalog` (project.py:75-96) never compares the category's owner with
  the caller, so any signed-in user may delete any empty category.
  `Properties.StrangerDeletesEmptyCategory` plays this through and proves the
  delete succeeds.
- `social_id` is one global unique column (database.py:12), not scoped by
  provider; the model keeps one global constraint.
- Concurrent first sign-ins have no handling beyond that unique constraint;
  the callback is modelled as one atomic step.
- The callback's insert (project.py:241-244) is `Database.AddUser`, which
  skips the constraint check: the lookup at project.py:240 has just ruled out
  a duplicate `social_id`. `Database.InsertUser` states what the constraint
  itself does.

## Model

| member | source | states |
|---|---|---|
| `Keys.NextKey` | database.py:11 | a new row's key is at least 1 and greater than every key in use, so it never collides |
| `Keys.First` | project.py:80 | `.first()` yields nothing exactly when nothing matches, otherwise the least matching key |
| `Keys.Ascending` | project.py:38 | the listing of a table holds every key of it exactly once, in strictly ascending order |
| `Keys.One` | project.py:117 | `.one()` yields a key exactly when one row matches, and that row is the only match |
| `Database.FindUserBySocialId` | project.py:240 | the lookup fails exactly when no user has the `social_id`; a hit has that `social_id` and, with unique `social_id`s, is the only such user |
| `Database.FindCategoryBySlug` | project.py:80 | the lookup fails exactly when no category has the slug; a hit has that slug and, with unique slugs, is the only one |
| `Database.ResolveCategoryName` | project.py:116-119 | the category name resolves exactly when one category has it, and only to that category |
| `Database.AddUser` | project.py:241-244 | the callback's insert adds the user under a key not in use and changes nothing else |
| `Database.InsertUser` | database.py:12 | the insert is refused exactly when the `social_id` is taken; otherwise one user is added under a fresh key, nothing else changes, and `social_id`s stay unique |
| `Database.InsertCategory` | database.py:30 | the insert is refused exactly when the slug is taken; otherwise one category is added under a fresh key, nothing else changes, and slugs stay unique |
| `Database.AddItem` | project.py:133-136 | an item insert adds the item under a fresh key and changes nothing else |
| `Database.ItemsOfDisjoint` | database.py:56 | an item belongs to the `items` of at most one category |
| `Database.ItemsOfCover` | database.py:32 | in a valid store every item is in the `items` of the category it names, and that category exists |
| `Sessions.LoadUser` | database.py:69-71 | `load_user` yields a user exactly when the key has a row, and then that row |
| `Sessions.CurrentUser` | database.py:69-71 | the caller is a user exactly when the session is bound to an id that has a user row, and then it is that id |
| `Sessions.Login` | project.py:245 | `login_user` binds the session to the given user |
| `Sessions.Logout` | project.py:258 | `logout_user` leaves the session anonymous |
| `Sessions.LoginResolves` | project.py:245 | after `login_user` the caller is that user, and the resulting session does not depend on what it held before |
| `Sessions.LogoutResolvesAnonymous` | project.py:258 | after `logout_user` the caller is anonymous; logging out twice equals once |
| `Sessions.DanglingSessionIsAnonymous` | database.py:69-71 | a session bound to an id with no user row resolves to an anonymous caller |
| `Forms.CategoryErrors` | project.py:62-65 | the category form has errors exactly when the name is empty, and then only a "required" error on the name |
| `Forms.CheckItemForm` | project.py:111-122 | name and description errors exactly when empty; a category error exactly when the field is empty or does not name exactly one category, reading "not valid" exactly in the latter case; no errors exactly when all fields are filled and the category resolves |
| `Serialize.UserJsonOf` | database.py:18-23 | a user's projection carries the user's key and nickname |
| `Serialize.ItemJsonOf` | database.py:58-66 | an item's projection carries its key, name, description, creation time and its owner's projection |
| `Serialize.ItemJsons` | database.py:58-66 | the item list has one projection per id, in order, each the item's own projection |
| `Serialize.CategoryJsonOf` | database.py:36-45 | a category projection carries the category's key, name, slug, description and its owner's projection |
| `Serialize.CategoryJsonListsItsItems` | database.py:44 | a category projection lists exactly the category's items, each once, in ascending key order, each as the item's projection |
| `Serialize.CategoryJsons` | project.py:39 | a list of category projections has one entry per key, in the same order, each that category's projection |
| `Serialize.CatalogJson` | project.py:36-39 | the catalog export lists every category exactly once, in ascending key order, each as its projection |
| `Serialize.UserJsonHidesPrivateFields` | database.py:18-23 | a user's projection does not depend on `social_id` or `email` |
| `Serialize.UserJsonKeepsIdAndNickname` | database.py:18-23 | two user projections are equal exactly when the keys and the nicknames are equal |
| `Handlers.CreateCatalog` | project.py:53-72 | anonymous callers are gated; a signed-in POST changes the store exactly when the name is filled and its slug is free, and then adds one category named from the form, owned by the caller; an empty name renders the form with its errors; a taken slug is a unique-constraint server error with nothing changed; the store invariant is kept |
| `Handlers.DeleteCatalog` | project.py:75-96 | anonymous callers are gated; an unknown slug is reported with nothing changed; with unique slugs, the category with that slug is refused with a not-empty notice when it has items, removed on POST when empty, and its confirmation page rendered on GET when empty; nothing else changes; the store invariant is kept |
| `Handlers.Unauthorized` | project.py:22-25 | the gate's answer redirects to login and leaves store and session unchanged |
| `Handlers.CreateItem` | project.py:99-140 | anonymous callers are gated; a POST writes exactly when the form has no errors, and then adds one item owned by the caller in the one category with the given name; a form with errors is rendered with exactly those errors; the store invariant is kept |
| `Handlers.DeleteItem` | project.py:143-158 | anonymous callers are gated; a missing item is a server error; any other signed-in caller than the item's owner gets the no-permission notice with nothing changed; the owner's GET renders the confirmation page and the owner's POST removes exactly that item |
| `Handlers.EditItem` | project.py:161-207 | anonymous callers are gated; a missing item is a server error; any other signed-in caller than the item's owner gets the no-permission notice with nothing changed; the owner's POST with form errors renders exactly those errors; a change needs a filled form with a resolving category, rewrites only that item's name, category and description, and redirects to that category |
| `Handlers.OAuthAuthorize` | project.py:217-223 | never changes store or session; redirects to the provider exactly when the caller is anonymous and the provider is registered |
| `Handlers.OAuthCallback` | project.py:227-246 | a signed-in caller changes nothing; an unregistered provider is a server error with nothing changed; a failed handshake changes nothing; otherwise the session is bound to a user with the returned `social_id`; existing users are never altered |
| `Handlers.LoginPage` | project.py:249-253 | never changes anything; shows the login page to anonymous callers and redirects signed-in callers home |
| `Handlers.LogoutRoute` | project.py:256-259 | leaves the store alone, clears the session's binding outright and redirects home |
| `Routes.Handle` | project.py:53-259 | every route keeps the store invariant, and gated routes never touch the session |
| `Properties.LoginGate` | project.py:22-25 | an anonymous caller of any gated route is redirected to login, with store and session unchanged |
| `Properties.InertRequestsChangeNothing` | project.py:81-88 | every refusal, server error or rendered page leaves store and session unchanged |
| `Properties.GetIsReadOnly` | project.py:72 | a GET on any gated route changes neither store nor session |
| `Properties.OwnershipGate` | project.py:148-151 | for anyone but the item's own owner, item edit and delete leave the store unchanged |
| `Properties.OwnerDeletesExactlyThatItem` | project.py:153-157 | the owner's POST delete removes that one item and leaves all other records as they were |
| `Properties.EditKeepsOwnerAndTimestamp` | project.py:198-203 | an edit keeps the item's key, owner and creation time and touches no other item |
| `Properties.NonEmptyCategoryStays` | project.py:85-88 | no request removes or alters a category that has items |
| `Properties.DeleteEmptyCategory` | project.py:78-94 | a signed-in POST on a category's slug removes exactly that category when it is empty, and changes nothing with a not-empty notice otherwise; the owner is not consulted |
| `Properties.DeleteEmptyCategoryAsksFirst` | project.py:90-96 | a signed-in GET on an empty category's slug renders the confirmation page and changes nothing |
| `Properties.UsersAreStable` | project.py:240-244 | no request deletes a user or rewrites an existing user's record |
| `Properties.CallbackFindsExistingUser` | project.py:240-245 | signing in with a known `social_id` binds the session to that user and leaves the store unchanged |
| `Properties.CallbackCreatesUser` | project.py:241-245 | signing in with an unseen `social_id` adds exactly one user with the provider's data under a fresh key and binds the session to it |
| `Properties.CallbackIdempotent` | project.py:240-245 | signing in, out through the logout route and in again with the same `social_id` yields the same user and store |
| `Properties.CallbackFailureChangesNothing` | project.py:237-239 | a handshake without `social_id` reports failure and changes nothing |
| `Properties.SignedInSkipsSignIn` | project.py:230-231 | a signed-in caller of either sign-in route is sent home with nothing changed |
| `Properties.SignInBindsSession` | project.py:245 | after a successful callback the caller resolves to a user with the returned `social_id` |
| `Properties.ValidationBlocksWrites` | project.py:124-138 | a permitted POST on the item forms leaves the store unchanged exactly when the form has errors (or an edit rewrites an item to its own values) |
| `Properties.StrangerDeletesEmptyCategory` | project.py:75-96 | a user who does not own an empty category can still delete it |

## Left out

- Flask routing, templates, `jsonify`, `redirect`/`url_for` and the wording of
  flash messages: outcomes are an abstract datatype; a notice carries only
  the category or item name it mentions.
- The index page (`index`, the three latest items by `created_at`) and the
  category page (`catalogItems`): read-only views with no rule to prove.
- `catalogItem`: returns a fixed text built from its URL argument.
- The OAuth handshake itself: `auth.py` is not part of this model. Its result
  is an input. An unregistered provider name is assumed to raise (a lookup in
  the provider table) and is modelled as a server error.
- `slugify` (an external library): an arbitrary function parameter.
- The `remember=True` cookie lifetime of `login_user`, the secret key and the
  application configuration: transport concerns.
- Concurrent first sign-ins: the code has only the unique constraint; every
  request is one atomic step here.
- Form fields missing from the request (the framework answers 400): forms
  always carry every field, possibly empty.
- A non-numeric `item_id` in the URL: item ids are naturals, and an id with no
  row gives the same server error as the code's crash on `item.user`.
- The `VARCHAR(64)` column widths: SQLite does not enforce them.
- The pre-selected category of the item form after a failed POST: presentation
  only.
- SQLite does not enforce foreign keys by default; referential integrity is
  the store invariant the handlers are proved to keep, not a check the store
  makes.

=== FILE: database.dfy ===
/**
 * The catalog's three tables (users, categories, items) as finite maps from
 * primary key to record, together with the storage-level constraints the
 * request handlers rely on: `social_id` and `slug` are unique, and every
 * category and item refers to rows that exist.
 */
module Database {
  import opened Wrappers
  import Keys

  type UserId = nat
  type CategoryId = nat
  type ItemId = nat

  /** A local account, created on first federated sign-in. `email` may be null. */
  datatype User = User(socialId: string, nickname: string, email: Option<string>)

  /** A category; `slug` is derived from `name` and is the lookup key in URLs. */
  datatype Category = Category(name: string, slug: string, description: string, ownerId: UserId)

  /**
   * An item. Its owner is its own `ownerId`, independent of the owner of the
   * category it belongs to; `createdAt` is the wall-clock time of the insert.
   */
  datatype Item = Item(name: string, description: string, createdAt: int,
                       ownerId: UserId, categoryId: CategoryId)

  datatype Store = Store(users: map<UserId, User>,
                         categories: map<CategoryId, Category>,
                         items: map<ItemId, Item>)

  /** The unique constraints a commit can violate. */
  datatype Violation = DuplicateSocialId | DuplicateSlug

  predicate SocialIdsUnique(users: map<UserId, User>) {
    forall a, b :: a in users && b in users && users[a].socialId == users[b].socialId ==> a == b
  }

  predicate SlugsUnique(categories: map<CategoryId, Category>) {
    forall a, b :: a in categories && b in categories && categories[a].slug == categories[b].slug ==> a == b
  }

  /** Every category has an existing owner; every item has an existing owner and category. */
  predicate Linked(st: Store) {
    && (forall c :: c in st.categories ==> st.categories[c].ownerId in st.users)
    && (forall i :: i in st.items ==> st.items[i].ownerId in st.users && st.items[i].categoryId in st.categories)
  }

  /** The invariant of the store: the two unique constraints and referential integrity. */
  predicate Valid(st: Store) {
    SocialIdsUnique(st.users) && SlugsUnique(st.categories) && Linked(st)
  }

  /** `after` is `before` with one more row, stored under a key that was free. */
  ghost predicate Inserted<V>(before: map<nat, V>, after: map<nat, V>, v: V) {
    exists k: nat :: k !in before && after == before[k := v]
  }

  function WithSocialId(users: map<UserId, User>, socialId: string): set<UserId> {
    set u | u in users && users[u].socialId == socialId
  }

  function WithSlug(categories: map<CategoryId, Category>, slug: string): set<CategoryId> {
    set c | c in categories && categories[c].slug == slug
  }

  function WithName(categories: map<CategoryId, Category>, name: string): set<CategoryId> {
    set c | c in categories && categories[c].name == name
  }

  /** The `items` relationship of a category: the items whose `category_id` is `c`. */
  function ItemsOf(st: Store, c: CategoryId): set<ItemId> {
    set i | i in st.items && st.items[i].categoryId == c
  }

  /** `User.query.filter_by(social_id=...).first()`. */
  function FindUserBySocialId(users: map<UserId, User>, socialId: string): (r: Option<UserId>)
    ensures r.None? <==> forall u :: u in users ==> users[u].socialId != socialId
    ensures r.Some? ==> r.value in users && users[r.value].socialId == socialId
    ensures r.Some? && SocialIdsUnique(users) ==> WithSocialId(users, socialId) == {r.value}
  {
    var found := Keys.First(WithSocialId(users, socialId));
    assert found.None? ==> forall u :: u in users ==> users[u].socialId != socialId by {
      if found.None? {
        forall u | u in users ensures users[u].socialId != socialId {
          assert u !in WithSocialId(users, socialId);
        }
      }
    }
    found
  }

  /** `Category.query.filter_by(slug=...).first()`. */
  function FindCategoryBySlug(categories: map<CategoryId, Category>, slug: string): (r: Option<CategoryId>)
    ensures r.None? <==> forall c :: c in categories ==> categories[c].slug != slug
    ensures r.Some? ==> r.value in categories && categories[r.value].slug == slug
    ensures r.Some? && SlugsUnique(categories) ==> WithSlug(categories, slug) == {r.value}
  {
    var found := Keys.First(WithSlug(categories, slug));
    assert found.None? ==> forall c :: c in categories ==> categories[c].slug != slug by {
      if found.None? {
        forall c | c in categories ensures categories[c].slug != slug {
          assert c !in WithSlug(categories, slug);
        }
      }
    }
    found
  }

  /**
   * `Category.query.filter_by(name=...).one()`: resolves only when exactly one
   * category carries the name; none or several raise, which callers catch.
   */
  function ResolveCategoryName(categories: map<CategoryId, Category>, name: string): (r: Option<CategoryId>)
    ensures r.Some? <==> |WithName(categories, name)| == 1
    ensures r.Some? ==> r.value in categories && categories[r.value].name == name
    ensures r.Some? ==> forall c :: c in categories && categories[c].name == name ==> c == r.value
  {
    var found := Keys.One(WithName(categories, name));
    assert found.Some? ==> forall c :: c in categories && categories[c].name == name ==> c == found.value by {
      if found.Some? {
        forall c | c in categories && categories[c].name == name ensures c == found.value {
          assert c in WithName(categories, name);
        }
      }
    }
    found
  }

  /** Insert a user row without consulting the unique constraint. */
  function AddUser(st: Store, u: User): (r: (Store, UserId))
    ensures r.1 !in st.users
    ensures r.0 == st.(users := st.users[r.1 := u])
  {
    var id := Keys.NextKey(st.users.Keys);
    (st.(users := st.users[id := u]), id)
  }

  /** Insert a user and commit: the `social_id` unique constraint refuses a duplicate. */
  function InsertUser(st: Store, u: User): (r: Result<(Store, UserId), Violation>)
    ensures r.Err? <==> exists v :: v in st.users && st.users[v].socialId == u.socialId
    ensures r.Err? ==> r.error == DuplicateSocialId
    ensures r.Ok? ==> r.value.1 !in st.users && r.value.0 == st.(users := st.users[r.value.1 := u])
    ensures r.Ok? && SocialIdsUnique(st.users) ==> SocialIdsUnique(r.value.0.users)
  {
    if FindUserBySocialId(st.users, u.socialId).Some? then Err(DuplicateSocialId)
    else Ok(AddUser(st, u))
  }

  /** Insert a category and commit: the `slug` unique constraint refuses a duplicate. */
  function InsertCategory(st: Store, c: Category): (r: Result<(Store, CategoryId), Violation>)
    ensures r.Err? <==> exists d :: d in st.categories && st.categories[d].slug == c.slug
    ensures r.Err? ==> r.error == DuplicateSlug
    ensures r.Ok? ==> r.value.1 !in st.categories && r.value.0 == st.(categories := st.categories[r.value.1 := c])
    ensures r.Ok? && SlugsUnique(st.categories) ==> SlugsUnique(r.value.0.categories)
  {
    if FindCategoryBySlug(st.categories, c.slug).Some? then Err(DuplicateSlug)
    else
      var id := Keys.NextKey(st.categories.Keys);
      Ok((st.(categories := st.categories[id := c]), id))
  }

  /** Insert an item; the items table has no unique column, so this cannot be refused. */
  function AddItem(st: Store, it: Item): (r: (Store, ItemId))
    ensures r.1 !in st.items
    ensures r.0 == st.(items := st.items[r.1 := it])
  {
    var id := Keys.NextKey(st.items.Keys);
    (st.(items := st.items[id := it]), id)
  }

  /** Every item belongs to exactly one category: the `items` sets of distinct categories are disjoint. */
  lemma ItemsOfDisjoint(st: Store, c: CategoryId, d: CategoryId)
    requires c != d
    ensures ItemsOf(st, c) !! ItemsOf(st, d)
  {
  }

  /** In a valid store every item lies in the `items` set of the category it names, which exists. */
  lemma ItemsOfCover(st: Store, i: ItemId)
    requires Valid(st)
    requires i in st.items
    ensures st.items[i].categoryId in st.categories
    ensures i in ItemsOf(st, st.items[i].categoryId)
  {
  }
}

=== FILE: forms.dfy ===
/**
 * Validation of the category and item forms. The result is the errors map
 * the handlers render back: one entry per offending field, saying whether the
 * field was missing or named no single category.
 */
module Forms {
  import opened Wrappers
  import opened Database

  datatype CategoryForm = CategoryForm(name: string, description: string)
  datatype ItemForm = ItemForm(name: string, category: string, description: string)

  datatype Field = NameField | CategoryField | DescriptionField

  /** `Required` is "... is required!"; `NotValid` is "That is not a valid category!". */
  datatype Problem = Required | NotValid

  type Errors = map<Field, Problem>

  /** Errors of the new-category form: only the name is mandatory. */
  function CategoryErrors(form: CategoryForm): (errors: Errors)
    ensures errors == map[] <==> form.name != ""
    ensures errors.Keys <= {NameField}
    ensures NameField in errors ==> errors[NameField] == Required
  {
    if form.name == "" then
      var errors := map[NameField := Required];
      assert NameField in errors;
      errors
    else
      map[]
  }

  /** The errors of an item form, and the category its `category` field resolved to. */
  datatype ItemCheck = ItemCheck(errors: Errors, category: Option<CategoryId>)

  /**
   * Errors of the item form, collected in the order the handlers check them:
   * empty name, empty category, the category name resolving to other than
   * exactly one category (which overwrites the empty-category message), empty
   * description.
   */
  function CheckItemForm(categories: map<CategoryId, Category>, form: ItemForm): (r: ItemCheck)
    ensures r.category == ResolveCategoryName(categories, form.category)
    ensures NameField in r.errors <==> form.name == ""
    ensures DescriptionField in r.errors <==> form.description == ""
    ensures CategoryField in r.errors <==> form.category == "" || r.category.None?
    ensures forall f :: f in r.errors && f != CategoryField ==> r.errors[f] == Required
    ensures CategoryField in r.errors ==> (r.errors[CategoryField] == NotValid <==> r.category.None?)
    ensures r.errors == map[] <==> form.name != "" && form.description != "" && form.category != "" && r.category.Some?
  {
    var resolved := ResolveCategoryName(categories, form.category);
    var e1: Errors := if form.name == "" then map[NameField := Required] else map[];
    var e2 := if form.category == "" then e1[CategoryField := Required] else e1;
    var e3 := if resolved.None? then e2[CategoryField := NotValid] else e2;
    var e4 := if form.description == "" then e3[DescriptionField := Required] else e3;
    assert NameField in e4 <==> form.name == "";
    ItemCheck(e4, resolved)
  }
}

=== FILE: handlers.dfy ===
/**
 * The request handlers of the catalog application, each a pure transition
 * from (store, session, request data) to a new store, a new session and an
 * outcome. Handlers behind the login gate answer an anonymous caller with a
 * redirect to the login page and change nothing.
 */
module Handlers {
  import opened Wrappers
  import opened Database
  import opened Sessions
  import opened Forms

  datatype Verb = Get | Post

  /** What the identity provider's callback yields when it succeeds. */
  datatype Identity = Identity(socialId: string, nickname: string, email: Option<string>)

  datatype Page = CreateCatalogPage | DeleteCatalogPage | CreateItemPage | DeleteItemPage | EditItemPage | LoginFormPage

  /** The flash message accompanying a redirect. */
  datatype Notice =
    | Silent
    | CategoryNotFound
    | CategoryNotEmpty(categoryName: string)
    | CategoryDeleted
    | ItemCreated
    | ItemDeleted
    | NotPermitted(itemName: string)
    | AuthenticationFailed

  /** Exceptions the handlers do not catch; the request fails and nothing is committed. */
  datatype Fault = NoSuchItem | UniqueViolation(violation: Violation) | UnknownProvider(provider: string)

  datatype Outcome =
    | ToLogin                                  // the login gate: "Please log in", redirect to /login
    | Render(page: Page, errors: Errors)       // a page (or form with its errors) is rendered
    | ToIndex(notice: Notice)                  // redirect to the index page
    | ToCategory(slug: string, notice: Notice) // redirect to a category's page
    | ToProvider(provider: string)             // redirect to the provider's authorization URL
    | ServerError(fault: Fault)
  {
    /** Outcomes by which a handler refuses a request or only shows a page. */
    predicate Inert() {
      || ToLogin?
      || Render?
      || ServerError?
      || (ToIndex? && (notice.CategoryNotFound? || notice.NotPermitted? || notice.AuthenticationFailed?))
      || (ToCategory? && notice.CategoryNotEmpty?)
    }
  }

  datatype Step = Step(store: Store, session: Session, outcome: Outcome)

  /** `unauthorized()`: the response of every gated handler to an anonymous caller. */
  function Unauthorized(st: Store, ses: Session): (r: Step)
    ensures r.store == st && r.session == ses
    ensures r.outcome.Inert() && r.outcome.ToLogin?
  {
    Step(st, ses, ToLogin)
  }

  /** `createCatalog`: the new-category form (GET) and its submission (POST). */
  function CreateCatalog(st: Store, ses: Session, verb: Verb, form: CategoryForm,
                         slugify: string -> string): (r: Step)
    ensures CurrentUser(st, ses).None? ==> r == Step(st, ses, ToLogin)
    ensures r.session == ses
    ensures r.store.users == st.users && r.store.items == st.items
    ensures r.store != st ==>
              && verb == Post && CurrentUser(st, ses).Some? && form.name != ""
              && (forall d :: d in st.categories ==> st.categories[d].slug != slugify(form.name))
              && Inserted(st.categories, r.store.categories,
                          Category(form.name, slugify(form.name), form.description, CurrentUser(st, ses).value))
              && r.outcome == ToCategory(slugify(form.name), Silent)
    ensures CurrentUser(st, ses).Some? && verb == Post ==>
              (r.store == st <==>
                 form.name == "" || exists d :: d in st.categories && st.categories[d].slug == slugify(form.name))
    ensures CurrentUser(st, ses).Some? && verb == Post && form.name == "" ==>
              r.outcome == Render(CreateCatalogPage, CategoryErrors(form))
    ensures CurrentUser(st, ses).Some? && verb == Post && form.name != "" &&
            (exists d :: d in st.categories && st.categories[d].slug == slugify(form.name)) ==>
              r == Step(st, ses, ServerError(UniqueViolation(DuplicateSlug)))
    ensures Valid(st) ==> Valid(r.store)
  {
    match CurrentUser(st, ses)
    case None => Unauthorized(st, ses)
    case Some(uid) =>
      if verb == Get then Step(st, ses, Render(CreateCatalogPage, map[]))
      else
        var errors := CategoryErrors(form);
        if errors != map[] then Step(st, ses, Render(CreateCatalogPage, errors))
        else
          var category := Category(form.name, slugify(form.name), form.description, uid);
          match InsertCategory(st, category)
          case Err(v) => Step(st, ses, ServerError(UniqueViolation(v)))
          case Ok((st', id)) =>
            assert verb == Post;
            assert st'.categories == st.categories[id := category];
            assert Inserted(st.categories, st'.categories, category);
            Step(st', ses, ToCategory(category.slug, Silent))
  }

  /**
   * `deleteCatalog`: any signed-in caller may delete a category, provided it
   * has no items; there is no check of the category's owner.
   */
  function DeleteCatalog(st: Store, ses: Session, verb: Verb, slugArg: string,
                         slugify: string -> string): (r: Step)
    ensures CurrentUser(st, ses).None? ==> r == Step(st, ses, ToLogin)
    ensures r.session == ses
    ensures r.store.users == st.users && r.store.items == st.items
    ensures r.store != st ==>
              && verb == Post && CurrentUser(st, ses).Some?
              && exists c :: c in st.categories && st.categories[c].slug == slugify(slugArg)
                             && ItemsOf(st, c) == {} && r.store.categories == st.categories - {c}
    ensures CurrentUser(st, ses).Some? && (forall c :: c in st.categories ==> st.categories[c].slug != slugify(slugArg)) ==>
              r == Step(st, ses, ToIndex(CategoryNotFound))
    ensures SlugsUnique(st.categories) && CurrentUser(st, ses).Some? ==>
              forall c :: c in st.categories && st.categories[c].slug == slugify(slugArg) ==>
                && (ItemsOf(st, c) != {} ==>
                      r == Step(st, ses, ToCategory(slugify(slugArg), CategoryNotEmpty(st.categories[c].name))))
                && (ItemsOf(st, c) == {} && verb == Get ==> r == Step(st, ses, Render(DeleteCatalogPage, map[])))
                && (ItemsOf(st, c) == {} && verb == Post ==>
                      r == Step(st.(categories := st.categories - {c}), ses, ToIndex(CategoryDeleted)))
    ensures Valid(st) ==> Valid(r.store)
  {
    match CurrentUser(st, ses)
    case None => Unauthorized(st, ses)
    case Some(_) =>
      var slug := slugify(slugArg);
      match FindCategoryBySlug(st.categories, slug)
      case None => Step(st, ses, ToIndex(CategoryNotFound))
      case Some(c) =>
        if ItemsOf(st, c) != {} then Step(st, ses, ToCategory(slug, CategoryNotEmpty(st.categories[c].name)))
        else if verb == Post then
          var st' := st.(categories := st.categories - {c});
          assert Valid(st) ==> Valid(st') by {
            if Valid(st) {
              forall i | i in st'.items ensures st'.items[i].categoryId in st'.categories {
                assert i !in ItemsOf(st, c);
              }
            }
          }
          Step(st', ses, ToIndex(CategoryDeleted))
        else Step(st, ses, Render(DeleteCatalogPage, map[]))
  }

  /** `createCatalogItem`: the new-item form (GET) and its submission (POST). */
  function CreateItem(st: Store, ses: Session, verb: Verb, form: ItemForm, now: int): (r: Step)
    ensures CurrentUser(st, ses).None? ==> r == Step(st, ses, ToLogin)
    ensures r.session == ses
    ensures r.store.users == st.users && r.store.categories == st.categories
    ensures r.store != st ==>
              && verb == Post && CurrentUser(st, ses).Some?
              && form.name != "" && form.category != "" && form.description != ""
              && exists c :: WithName(st.categories, form.category) == {c}
                             && Inserted(st.items, r.store.items,
                                         Item(form.name, form.description, now, CurrentUser(st, ses).value, c))
                             && r.outcome == ToCategory(st.categories[c].slug, ItemCreated)
    ensures CurrentUser(st, ses).Some? && verb == Post ==>
              (r.store == st <==> CheckItemForm(st.categories, form).errors != map[])
    ensures CurrentUser(st, ses).Some? && verb == Post && CheckItemForm(st.categories, form).errors != map[] ==>
              r.outcome == Render(CreateItemPage, CheckItemForm(st.categories, form).errors)
    ensures Valid(st) ==> Valid(r.store)
  {
    match CurrentUser(st, ses)
    case None => Unauthorized(st, ses)
    case Some(uid) =>
      if verb == Get then Step(st, ses, Render(CreateItemPage, map[]))
      else
        var check := CheckItemForm(st.categories, form);
        if check.errors != map[] then Step(st, ses, Render(CreateItemPage, check.errors))
        else
          var c := check.category.value;
          var item := Item(form.name, form.description, now, uid, c);
          var (st', id) := AddItem(st, item);
          assert Inserted(st.items, st'.items, item) by {
            assert st'.items == st.items[id := item];
          }
          var r := Step(st', ses, ToCategory(st.categories[c].slug, ItemCreated));
          assert verb == Post;
          assert CurrentUser(st, ses).Some?;
          assert form.name != "" && form.category != "" && form.description != "";
          assert WithName(st.categories, form.category) == {c}
                 && Inserted(st.items, r.store.items, Item(form.name, form.description, now, uid, c))
                 && r.outcome == ToCategory(st.categories[c].slug, ItemCreated);
          r
  }

  /** `deleteItem`: only the item's own owner may delete it. */
  function DeleteItem(st: Store, ses: Session, verb: Verb, itemId: ItemId): (r: Step)
    ensures CurrentUser(st, ses).None? ==> r == Step(st, ses, ToLogin)
    ensures r.session == ses
    ensures r.store.users == st.users && r.store.categories == st.categories
    ensures CurrentUser(st, ses).Some? && itemId !in st.items ==> r == Step(st, ses, ServerError(NoSuchItem))
    ensures itemId in st.items && CurrentUser(st, ses) != Some(st.items[itemId].ownerId) ==> r.store == st
    ensures CurrentUser(st, ses).Some? && itemId in st.items && CurrentUser(st, ses) != Some(st.items[itemId].ownerId) ==>
              r == Step(st, ses, ToIndex(NotPermitted(st.items[itemId].name)))
    ensures verb == Get && itemId in st.items && CurrentUser(st, ses) == Some(st.items[itemId].ownerId) ==>
              r == Step(st, ses, Render(DeleteItemPage, map[]))
    ensures r.store != st ==> verb == Post && itemId in st.items && CurrentUser(st, ses) == Some(st.items[itemId].ownerId)
    ensures verb == Post && itemId in st.items && CurrentUser(st, ses) == Some(st.items[itemId].ownerId) ==>
              r == Step(st.(items := st.items - {itemId}), ses, ToIndex(ItemDeleted))
    ensures Valid(st) ==> Valid(r.store)
  {
    match CurrentUser(st, ses)
    case None => Unauthorized(st, ses)
    case Some(uid) =>
      if itemId !in st.items then Step(st, ses, ServerError(NoSuchItem))
      else if st.items[itemId].ownerId != uid then Step(st, ses, ToIndex(NotPermitted(st.items[itemId].name)))
      else if verb == Post then Step(st.(items := st.items - {itemId}), ses, ToIndex(ItemDeleted))
      else Step(st, ses, Render(DeleteItemPage, map[]))
  }

  /** `editItem`: only the item's own owner may edit it; name, category and description change. */
  function EditItem(st: Store, ses: Session, verb: Verb, itemId: ItemId, form: ItemForm): (r: Step)
    ensures CurrentUser(st, ses).None? ==> r == Step(st, ses, ToLogin)
    ensures r.session == ses
    ensures r.store.users == st.users && r.store.categories == st.categories
    ensures r.store.items.Keys == st.items.Keys
    ensures CurrentUser(st, ses).Some? && itemId !in st.items ==> r == Step(st, ses, ServerError(NoSuchItem))
    ensures itemId in st.items && CurrentUser(st, ses) != Some(st.items[itemId].ownerId) ==> r.store == st
    ensures CurrentUser(st, ses).Some? && itemId in st.items && CurrentUser(st, ses) != Some(st.items[itemId].ownerId) ==>
              r == Step(st, ses, ToIndex(NotPermitted(st.items[itemId].name)))
    ensures itemId in st.items && CurrentUser(st, ses) == Some(st.items[itemId].ownerId) && verb == Post &&
            CheckItemForm(st.categories, form).errors != map[] ==>
              r == Step(st, ses, Render(EditItemPage, CheckItemForm(st.categories, form).errors))
    ensures r.store != st ==>
              && verb == Post && itemId in st.items && CurrentUser(st, ses) == Some(st.items[itemId].ownerId)
              && form.name != "" && form.category != "" && form.description != ""
              && exists c :: WithName(st.categories, form.category) == {c}
                             && r.store.items == st.items[itemId := st.items[itemId].(name := form.name,
                                                                                     categoryId := c,
                                                                                     description := form.description)]
                             && r.outcome == ToCategory(st.categories[c].slug, Silent)
    ensures Valid(st) ==> Valid(r.store)
  {
    match CurrentUser(st, ses)
    case None => Unauthorized(st, ses)
    case Some(uid) =>
      if itemId !in st.items then Step(st, ses, ServerError(NoSuchItem))
      else
        var item := st.items[itemId];
        if item.ownerId != uid then Step(st, ses, ToIndex(NotPermitted(item.name)))
        else if verb == Get then Step(st, ses, Render(EditItemPage, map[]))
        else
          var check := CheckItemForm(st.categories, form);
          if check.errors != map[] then Step(st, ses, Render(EditItemPage, check.errors))
          else
            var c := check.category.value;
            var edited := item.(name := form.name, categoryId := c, description := form.description);
            var r := Step(st.(items := st.items[itemId := edited]), ses, ToCategory(st.categories[c].slug, Silent));
            assert verb == Post && CurrentUser(st, ses) == Some(item.ownerId);
            assert form.name != "" && form.category != "" && form.description != "";
            assert WithName(st.categories, form.category) == {c}
                   && r.store.items == st.items[itemId := st.items[itemId].(name := form.name,
                                                                           categoryId := c,
                                                                           description := form.description)]
                   && r.outcome == ToCategory(st.categories[c].slug, Silent);
            r
  }

  /** `oauth_authorize`: send an anonymous caller to the provider; a signed-in caller goes home. */
  function OAuthAuthorize(st: Store, ses: Session, provider: string, providers: set<string>): (r: Step)
    ensures r.store == st && r.session == ses
    ensures CurrentUser(st, ses).Some? ==> r.outcome == ToIndex(Silent)
    ensures r.outcome.ToProvider? <==> CurrentUser(st, ses).None? && provider in providers
    ensures r.outcome.ToProvider? ==> r.outcome.provider == provider
  {
    if CurrentUser(st, ses).Some? then Step(st, ses, ToIndex(Silent))
    else if provider !in providers then Step(st, ses, ServerError(UnknownProvider(provider)))
    else Step(st, ses, ToProvider(provider))
  }

  /**
   * `oauth_callback`: find-or-create the local user for the identity the
   * provider returned and bind the session to it. Existing users are not
   * refreshed from the provider's profile.
   */
  function OAuthCallback(st: Store, ses: Session, provider: string, providers: set<string>,
                         identity: Option<Identity>): (r: Step)
    ensures CurrentUser(st, ses).Some? ==> r == Step(st, ses, ToIndex(Silent))
    ensures identity.None? ==> r.store == st && r.session == ses
    ensures CurrentUser(st, ses).None? && provider !in providers ==> r == Step(st, ses, ServerError(UnknownProvider(provider)))
    ensures CurrentUser(st, ses).None? && provider in providers && identity.None? ==> r.outcome == ToIndex(AuthenticationFailed)
    ensures r.store.categories == st.categories && r.store.items == st.items
    ensures r.store.users.Keys >= st.users.Keys
    ensures forall u :: u in st.users ==> r.store.users[u] == st.users[u]
    ensures r.session != ses ==>
              && CurrentUser(st, ses).None? && provider in providers && identity.Some?
              && r.session.Bound? && r.session.uid in r.store.users
              && r.store.users[r.session.uid].socialId == identity.value.socialId
    ensures CurrentUser(st, ses).None? && provider in providers && identity.Some? ==>
              && r.outcome == ToIndex(Silent)
              && r.session.Bound? && r.session.uid in r.store.users
              && r.store.users[r.session.uid].socialId == identity.value.socialId
    ensures Valid(st) ==> Valid(r.store)
  {
    if CurrentUser(st, ses).Some? then Step(st, ses, ToIndex(Silent))
    else if provider !in providers then Step(st, ses, ServerError(UnknownProvider(provider)))
    else
      match identity
      case None => Step(st, ses, ToIndex(AuthenticationFailed))
      case Some(who) =>
        match FindUserBySocialId(st.users, who.socialId)
        case Some(uid) => Step(st, Login(ses, uid), ToIndex(Silent))
        case None =>
          var (st', uid) := AddUser(st, User(who.socialId, who.nickname, who.email));
          Step(st', Login(ses, uid), ToIndex(Silent))
  }

  /** `login`: the login page, or home for a caller who is already signed in. */
  function LoginPage(st: Store, ses: Session): (r: Step)
    ensures r.store == st && r.session == ses
    ensures r.outcome.Render? <==> CurrentUser(st, ses).None?
    ensures CurrentUser(st, ses).None? ==> r.outcome == Render(LoginFormPage, map[])
    ensures CurrentUser(st, ses).Some? ==> r.outcome == ToIndex(Silent)
  {
    if CurrentUser(st, ses).Some? then Step(st, ses, ToIndex(Silent)) else Step(st, ses, Render(LoginFormPage, map[]))
  }

  /** `logout`: not gated; always leaves an anonymous session and the store as it was. */
  function LogoutRoute(st: Store, ses: Session): (r: Step)
    ensures r.store == st
    ensures r.session == Anonymous && CurrentUser(r.store, r.session).None?
    ensures r.outcome == ToIndex(Silent)
  {
    Step(st, Logout(ses), ToIndex(Silent))
  }
}

=== FILE: keys.dfy ===
/**
 * Primary keys of the catalog's tables are natural numbers. This module holds
 * what the storage layer does with sets of keys: pick the least matching row
 * (what an unordered `.first()` returns on a table scan), insist on exactly one
 * match (`.one()`), hand out the next key of an insert (largest key plus one,
 * the rule of an integer primary key), and list keys in ascending order.
 */
module Keys {
  import opened Wrappers

  /** A finite non-empty set of naturals has a least element. */
  lemma {:induction false} LeastOf(s: set<nat>) returns (m: nat)
    requires s != {}
    ensures m in s && forall x :: x in s ==> m <= x
    decreases s
  {
    var y :| y in s;
    if s == {y} {
      m := y;
    } else {
      var rest := LeastOf(s - {y});
      m := if y < rest then y else rest;
      forall x | x in s ensures m <= x {
        if x != y { assert x in s - {y}; }
      }
    }
  }

  /** A finite non-empty set of naturals has a greatest element. */
  lemma {:induction false} GreatestOf(s: set<nat>) returns (m: nat)
    requires s != {}
    ensures m in s && forall x :: x in s ==> x <= m
    decreases s
  {
    var y :| y in s;
    if s == {y} {
      m := y;
    } else {
      var rest := GreatestOf(s - {y});
      m := if y < rest then rest else y;
      forall x | x in s ensures x <= m {
        if x != y { assert x in s - {y}; }
      }
    }
  }

  function Least(s: set<nat>): (m: nat)
    requires s != {}
    ensures m in s && forall x :: x in s ==> m <= x
  {
    assert exists m :: m in s && forall x :: x in s ==> m <= x by {
      var least := LeastOf(s);
    }
    var m :| m in s && forall x :: x in s ==> m <= x;
    m
  }

  function Greatest(s: set<nat>): (m: nat)
    requires s != {}
    ensures m in s && forall x :: x in s ==> x <= m
  {
    assert exists m :: m in s && forall x :: x in s ==> x <= m by {
      var greatest := GreatestOf(s);
    }
    var m :| m in s && forall x :: x in s ==> x <= m;
    m
  }

  /** The key an insert receives: one past the largest key in use, or 1 in an empty table. */
  function NextKey(keys: set<nat>): (k: nat)
    ensures 1 <= k
    ensures forall x :: x in keys ==> x < k
  {
    if keys == {} then 1 else Greatest(keys) + 1
  }

  /** `.first()` over the rows whose keys are `ids`: none, or the least key. */
  function First(ids: set<nat>): (r: Option<nat>)
    ensures r.None? <==> ids == {}
    ensures r.Some? ==> r.value in ids && forall x :: x in ids ==> r.value <= x
  {
    if ids == {} then None else Some(Least(ids))
  }

  /** `.one()` over the rows whose keys are `ids`: a key only when exactly one row matches. */
  function One(ids: set<nat>): (r: Option<nat>)
    ensures r.Some? <==> |ids| == 1
    ensures r.Some? ==> ids == {r.value}
  {
    if |ids| == 1 then
      var k := Least(ids);
      assert |ids - {k}| == 0;
      Some(k)
    else
      None
  }

  /** The set of the elements of a sequence of keys. */
  function Members(r: seq<nat>): set<nat> {
    set i | 0 <= i < |r| :: r[i]
  }

  /** The keys of `s` in ascending order, each exactly once. */
  function Ascending(s: set<nat>): (r: seq<nat>)
    ensures Members(r) == s
    ensures forall i, j :: 0 <= i < j < |r| ==> r[i] < r[j]
    decreases s
  {
    if s == {} then []
    else
      var m := Least(s);
      var rest := Ascending(s - {m});
      var r := [m] + rest;
      assert Members(r) == s by {
        forall x | x in s ensures x in Members(r) {
          if x == m {
            assert r[0] == x;
          } else {
            assert x in Members(rest);
            var i :| 0 <= i < |rest| && rest[i] == x;
            assert r[i + 1] == x;
          }
        }
      }
      r
  }
}

=== FILE: properties.dfy ===
/**
 * Properties of the catalog as a state machine: the login gate, the
 * ownership gate, find-or-create sign-in, the non-empty-category rule, and
 * "nothing else changes" on every refused or read-only request.
 */
module Properties {
  import opened Wrappers
  import opened Database
  import opened Sessions
  import opened Forms
  import H = Handlers
  import opened Routes
  import Keys

  /** An anonymous caller of a gated route is sent to the login page and nothing changes. */
  lemma LoginGate(st: Store, ses: Session, req: Request, env: Env)
    requires req.Gated()
    requires CurrentUser(st, ses).None?
    ensures Handle(st, ses, req, env) == H.Step(st, ses, H.ToLogin)
  {
  }

  /** A refusal, an error or a rendered page leaves both the store and the session as they were. */
  lemma InertRequestsChangeNothing(st: Store, ses: Session, req: Request, env: Env)
    requires Handle(st, ses, req, env).outcome.Inert()
    ensures Handle(st, ses, req, env).store == st
    ensures Handle(st, ses, req, env).session == ses
  {
  }

  /** A GET on a gated route only shows a page: store and session are unchanged. */
  lemma GetIsReadOnly(st: Store, ses: Session, req: Request, env: Env)
    requires req.Gated() && req.verb == H.Get
    ensures Handle(st, ses, req, env).store == st
    ensures Handle(st, ses, req, env).session == ses
  {
  }

  /**
   * Only the item's own owner changes an item: for anyone else, edit and
   * delete leave the store as it was, whoever owns the item's category.
   */
  lemma OwnershipGate(st: Store, ses: Session, req: Request, env: Env)
    requires req.RemoveItem? || req.ChangeItem?
    requires req.itemId in st.items
    requires CurrentUser(st, ses) != Some(st.items[req.itemId].ownerId)
    ensures Handle(st, ses, req, env).store == st
  {
  }

  /** Deleting an owned item on POST removes exactly that item and nothing else. */
  lemma OwnerDeletesExactlyThatItem(st: Store, ses: Session, id: ItemId, env: Env)
    requires id in st.items
    requires CurrentUser(st, ses) == Some(st.items[id].ownerId)
    ensures var r := Handle(st, ses, RemoveItem(H.Post, id), env);
            && r.store.users == st.users && r.store.categories == st.categories
            && r.store.items.Keys == st.items.Keys - {id}
            && forall i :: i in r.store.items ==> r.store.items[i] == st.items[i]
  {
  }

  /** A successful edit keeps the item's key, owner and creation time, and touches no other item. */
  lemma EditKeepsOwnerAndTimestamp(st: Store, ses: Session, id: ItemId, form: ItemForm, env: Env)
    requires id in st.items
    ensures var r := Handle(st, ses, ChangeItem(H.Post, id, form), env);
            && id in r.store.items
            && r.store.items[id].ownerId == st.items[id].ownerId
            && r.store.items[id].createdAt == st.items[id].createdAt
            && forall i :: i in st.items && i != id ==> i in r.store.items && r.store.items[i] == st.items[i]
  {
  }

  /** A category with items is never removed, nor changed, by any request. */
  lemma NonEmptyCategoryStays(st: Store, ses: Session, req: Request, env: Env, c: CategoryId)
    requires c in st.categories && ItemsOf(st, c) != {}
    ensures c in Handle(st, ses, req, env).store.categories
    ensures Handle(st, ses, req, env).store.categories[c] == st.categories[c]
  {
  }

  /**
   * A signed-in caller's POST removes a category exactly when a category has
   * the slugified name and no items, and then removes only that one. The
   * category's owner is not consulted.
   */
  lemma DeleteEmptyCategory(st: Store, ses: Session, slug: string, env: Env, c: CategoryId)
    requires Valid(st)
    requires CurrentUser(st, ses).Some?
    requires c in st.categories && st.categories[c].slug == env.slugify(slug)
    ensures var r := Handle(st, ses, RemoveCategory(H.Post, slug), env);
            && (ItemsOf(st, c) == {} ==> r.store == st.(categories := st.categories - {c}) && r.outcome == H.ToIndex(H.CategoryDeleted))
            && (ItemsOf(st, c) != {} ==> r.store == st && r.outcome == H.ToCategory(env.slugify(slug), H.CategoryNotEmpty(st.categories[c].name)))
  {
  }

  /** A signed-in GET on an empty category's slug renders the confirmation page and changes nothing. */
  lemma DeleteEmptyCategoryAsksFirst(st: Store, ses: Session, slug: string, env: Env, c: CategoryId)
    requires Valid(st)
    requires CurrentUser(st, ses).Some?
    requires c in st.categories && st.categories[c].slug == env.slugify(slug) && ItemsOf(st, c) == {}
    ensures Handle(st, ses, RemoveCategory(H.Get, slug), env) == H.Step(st, ses, H.Render(H.DeleteCatalogPage, map[]))
  {
  }

  /** Requests never delete a user and never rewrite an existing user's record. */
  lemma UsersAreStable(st: Store, ses: Session, req: Request, env: Env)
    ensures st.users.Keys <= Handle(st, ses, req, env).store.users.Keys
    ensures forall u :: u in st.users ==> Handle(st, ses, req, env).store.users[u] == st.users[u]
  {
  }

  /** Signing in with a known `social_id` binds that user's session and leaves the store alone. */
  lemma CallbackFindsExistingUser(st: Store, ses: Session, provider: string, who: H.Identity,
                                    env: Env, u: UserId)
    requires SocialIdsUnique(st.users)
    requires CurrentUser(st, ses).None? && provider in env.providers
    requires u in st.users && st.users[u].socialId == who.socialId
    ensures Handle(st, ses, Callback(provider, Some(who)), env) == H.Step(st, Bound(u), H.ToIndex(H.Silent))
  {
  }

  /** Signing in with an unseen `social_id` adds exactly one user, from the provider's data, and binds to it. */
  lemma CallbackCreatesUser(st: Store, ses: Session, provider: string, who: H.Identity, env: Env)
    requires CurrentUser(st, ses).None? && provider in env.providers
    requires forall u :: u in st.users ==> st.users[u].socialId != who.socialId
    ensures var r := Handle(st, ses, Callback(provider, Some(who)), env);
            && r.session.Bound? && r.session.uid !in st.users
            && r.store == st.(users := st.users[r.session.uid := User(who.socialId, who.nickname, who.email)])
            && CurrentUser(r.store, r.session) == Some(r.session.uid)
  {
  }

  /**
   * Find-or-create is idempotent: signing in, logging out and signing in again
   * with the same `social_id` (whatever profile data comes with it) yields the
   * same user and creates nothing more.
   */
  lemma CallbackIdempotent(st: Store, ses: Session, provider: string,
                             first: H.Identity, again: H.Identity, env: Env)
    requires CurrentUser(st, ses).None? && provider in env.providers
    requires again.socialId == first.socialId
    ensures var r1 := Handle(st, ses, Callback(provider, Some(first)), env);
            var out := Handle(r1.store, r1.session, SignOut, env);
            var r2 := Handle(out.store, out.session, Callback(provider, Some(again)), env);
            r2.store == r1.store && r2.session == r1.session
  {
  }

  /** A failed handshake (no `social_id`) reports the failure and changes nothing. */
  lemma CallbackFailureChangesNothing(st: Store, ses: Session, provider: string, env: Env)
    requires CurrentUser(st, ses).None? && provider in env.providers
    ensures Handle(st, ses, Callback(provider, None), env) == H.Step(st, ses, H.ToIndex(H.AuthenticationFailed))
  {
  }

  /** A caller who is already signed in is sent home by both sign-in routes, and nothing changes. */
  lemma SignedInSkipsSignIn(st: Store, ses: Session, req: Request, env: Env)
    requires req.Authorize? || req.Callback?
    requires CurrentUser(st, ses).Some?
    ensures Handle(st, ses, req, env) == H.Step(st, ses, H.ToIndex(H.Silent))
  {
  }

  /** After a successful sign-in the session resolves to the signed-in user. */
  lemma SignInBindsSession(st: Store, ses: Session, provider: string, who: H.Identity, env: Env)
    requires CurrentUser(st, ses).None? && provider in env.providers
    ensures var r := Handle(st, ses, Callback(provider, Some(who)), env);
            && CurrentUser(r.store, r.session).Some?
            && r.store.users[CurrentUser(r.store, r.session).value].socialId == who.socialId
  {
  }

  /**
   * On the item forms a POST by an allowed caller changes the store exactly
   * when the form has no errors: a missing field or a category name that does
   * not resolve to exactly one category blocks the write.
   */
  lemma ValidationBlocksWrites(st: Store, ses: Session, req: Request, env: Env)
    requires req.NewItem? || req.ChangeItem?
    requires req.verb == H.Post && CurrentUser(st, ses).Some?
    requires req.ChangeItem? ==> req.itemId in st.items && CurrentUser(st, ses) == Some(st.items[req.itemId].ownerId)
    ensures Handle(st, ses, req, env).store == st <==>
              || CheckItemForm(st.categories, req.itemForm).errors != map[]
              || (req.ChangeItem? && st.items[req.itemId] == st.items[req.itemId].(
                    name := req.itemForm.name,
                    categoryId := CheckItemForm(st.categories, req.itemForm).category.value,
                    description := req.itemForm.description))
  {
  }

  /** Alice's and Bob's accounts and Alice's category in the scenario below. */
  function Alice(): User { User("ext123", "Alice", Some("a@x.com")) }
  function Bob(): User { User("ext456", "Bob", None) }
  function Books(env: Env): Category { Category("Books", env.slugify("Books"), "", 1) }

  lemma AliceSignsIn(env: Env)
    requires "google" in env.providers
    ensures Handle(Store(map[], map[], map[]), Anonymous, Callback("google", Some(H.Identity("ext123", "Alice", Some("a@x.com")))), env)
            == H.Step(Store(map[1 := Alice()], map[], map[]), Bound(1), H.ToIndex(H.Silent))
  {
  }

  lemma AliceCreatesBooks(env: Env)
    ensures Handle(Store(map[1 := Alice()], map[], map[]), Bound(1), NewCategory(H.Post, CategoryForm("Books", "")), env)
            == H.Step(Store(map[1 := Alice()], map[1 := Books(env)], map[]), Bound(1), H.ToCategory(env.slugify("Books"), H.Silent))
  {
  }

  lemma BobSignsIn(env: Env)
    requires "google" in env.providers
    ensures Handle(Store(map[1 := Alice()], map[1 := Books(env)], map[]), Anonymous,
                   Callback("google", Some(H.Identity("ext456", "Bob", None))), env)
            == H.Step(Store(map[1 := Alice(), 2 := Bob()], map[1 := Books(env)], map[]), Bound(2), H.ToIndex(H.Silent))
  {
    assert Keys.Greatest({1}) == 1;
    assert FindUserBySocialId(map[1 := Alice()], "ext456").None?;
  }

  lemma BobDeletesBooks(env: Env)
    ensures Handle(Store(map[1 := Alice(), 2 := Bob()], map[1 := Books(env)], map[]), Bound(2),
                   RemoveCategory(H.Post, "Books"), env)
            == H.Step(Store(map[1 := Alice(), 2 := Bob()], map[], map[]), Bound(2), H.ToIndex(H.CategoryDeleted))
  {
    var st := Store(map[1 := Alice(), 2 := Bob()], map[1 := Books(env)], map[]);
    assert WithSlug(st.categories, env.slugify("Books")) == {1};
    assert Keys.Least({1}) == 1;
    assert ItemsOf(st, 1) == {};
    assert st.categories - {1} == map[];
  }

  /**
   * Alice signs in and creates the empty category "Books"; Bob signs in on
   * another browser and deletes it. The delete succeeds: the category's owner
   * is never compared with the caller.
   */
  lemma StrangerDeletesEmptyCategory(env: Env)
    requires "google" in env.providers
    ensures var empty := Store(map[], map[], map[]);
            var alice := Handle(empty, Anonymous, Callback("google", Some(H.Identity("ext123", "Alice", Some("a@x.com")))), env);
            var books := Handle(alice.store, alice.session, NewCategory(H.Post, CategoryForm("Books", "")), env);
            var bob := Handle(books.store, Anonymous, Callback("google", Some(H.Identity("ext456", "Bob", None))), env);
            var gone := Handle(bob.store, bob.session, RemoveCategory(H.Post, "Books"), env);
            && books.store.categories == map[1 := Books(env)]
            && alice.session == Bound(1) && bob.session == Bound(2)
            && gone.outcome == H.ToIndex(H.CategoryDeleted)
            && gone.store.categories == map[]
  {
    AliceSignsIn(env);
    AliceCreatesBooks(env);
    BobSignsIn(env);
    BobDeletesBooks(env);
  }
}

=== FILE: routes.dfy ===
/**
 * The URL table of the application as one transition: a request names a
 * route and carries that route's inputs; the environment supplies what the
 * handlers take from outside the store (the slug function, the registered
 * identity providers, the wall clock).
 */
module Routes {
  import opened Wrappers
  import opened Database
  import opened Sessions
  import opened Forms
  import H = Handlers

  datatype Env = Env(slugify: string -> string, providers: set<string>, now: int)

  datatype Request =
    | NewCategory(verb: H.Verb, categoryForm: CategoryForm)          // /catalog/create
    | RemoveCategory(verb: H.Verb, slug: string)                     // /catalog/<slug>/delete
    | NewItem(verb: H.Verb, itemForm: ItemForm)                      // /item/create, /item/<catalog>/create
    | RemoveItem(verb: H.Verb, itemId: ItemId)                       // /item/<id>/delete
    | ChangeItem(verb: H.Verb, itemId: ItemId, itemForm: ItemForm)   // /item/<id>/edit
    | Authorize(provider: string)                                    // /auth/<provider>
    | Callback(provider: string, identity: Option<H.Identity>)       // /callback/<provider>
    | ShowLogin                                                      // /login
    | SignOut                                                        // /logout
  {
    /** The routes decorated with `@login_required`. */
    predicate Gated() {
      NewCategory? || RemoveCategory? || NewItem? || RemoveItem? || ChangeItem?
    }
  }

  function Handle(st: Store, ses: Session, req: Request, env: Env): (r: H.Step)
    ensures Valid(st) ==> Valid(r.store)
    ensures req.Gated() ==> r.session == ses
  {
    match req
    case NewCategory(verb, form) => H.CreateCatalog(st, ses, verb, form, env.slugify)
    case RemoveCategory(verb, slug) => H.DeleteCatalog(st, ses, verb, slug, env.slugify)
    case NewItem(verb, form) => H.CreateItem(st, ses, verb, form, env.now)
    case RemoveItem(verb, id) => H.DeleteItem(st, ses, verb, id)
    case ChangeItem(verb, id, form) => H.EditItem(st, ses, verb, id, form)
    case Authorize(provider) => H.OAuthAuthorize(st, ses, provider, env.providers)
    case Callback(provider, identity) => H.OAuthCallback(st, ses, provider, env.providers, identity)
    case ShowLogin => H.LoginPage(st, ses)
    case SignOut => H.LogoutRoute(st, ses)
  }
}

=== FILE: serialize.dfy ===
/**
 * The JSON projections of the records (`serialize` properties) and of the
 * whole catalog (`/catalog.json`). A user is exported as id and nickname
 * only; an item carries its owner's projection; a category carries its
 * owner's projection and the projections of its items.
 */
module Serialize {
  import opened Database
  import Keys

  datatype UserJson = UserJson(id: UserId, nickname: string)
  datatype ItemJson = ItemJson(id: ItemId, name: string, description: string, createdAt: int, user: UserJson)
  datatype CategoryJson = CategoryJson(id: CategoryId, name: string, slug: string, description: string,
                                       user: UserJson, items: seq<ItemJson>)

  /** `User.serialize`: the key and the nickname, nothing else. */
  function UserJsonOf(id: UserId, u: User): (r: UserJson)
    ensures r.id == id && r.nickname == u.nickname
  {
    UserJson(id, u.nickname)
  }

  /** `Item.serialize`: the item's own columns and its owner's projection. */
  function ItemJsonOf(st: Store, i: ItemId): (r: ItemJson)
    requires i in st.items && st.items[i].ownerId in st.users
    ensures r.id == i && r.name == st.items[i].name && r.description == st.items[i].description
    ensures r.createdAt == st.items[i].createdAt
    ensures r.user == UserJsonOf(st.items[i].ownerId, st.users[st.items[i].ownerId])
  {
    var it := st.items[i];
    ItemJson(i, it.name, it.description, it.createdAt, UserJsonOf(it.ownerId, st.users[it.ownerId]))
  }

  /** The projections of the items `ids`, in the same order. */
  function ItemJsons(st: Store, ids: seq<ItemId>): (r: seq<ItemJson>)
    requires forall k :: 0 <= k < |ids| ==> ids[k] in st.items && st.items[ids[k]].ownerId in st.users
    ensures |r| == |ids|
    ensures forall k :: 0 <= k < |r| ==> r[k].id == ids[k] && r[k] == ItemJsonOf(st, ids[k])
  {
    if ids == [] then [] else [ItemJsonOf(st, ids[0])] + ItemJsons(st, ids[1..])
  }

  /** A category's projection: its own columns, its owner's projection and its items' projections. */
  function CategoryJsonOf(st: Store, c: CategoryId): (r: CategoryJson)
    requires Linked(st) && c in st.categories
    ensures r.id == c && r.slug == st.categories[c].slug
    ensures r.name == st.categories[c].name && r.description == st.categories[c].description
    ensures r.user == UserJsonOf(st.categories[c].ownerId, st.users[st.categories[c].ownerId])
  {
    var cat := st.categories[c];
    var ids := Keys.Ascending(ItemsOf(st, c));
    assert forall k :: 0 <= k < |ids| ==> ids[k] in Keys.Members(ids);
    var items := ItemJsons(st, ids);
    CategoryJson(c, cat.name, cat.slug, cat.description, UserJsonOf(cat.ownerId, st.users[cat.ownerId]), items)
  }

  /** The ids a list of item projections mentions. */
  function ItemIds(items: seq<ItemJson>): set<ItemId> {
    set k | 0 <= k < |items| :: items[k].id
  }

  /** The ids a list of category projections mentions. */
  function CategoryIds(cats: seq<CategoryJson>): set<CategoryId> {
    set k | 0 <= k < |cats| :: cats[k].id
  }

  /**
   * A category's projection lists exactly the category's items, each once,
   * in ascending key order, each as that item's own projection.
   */
  lemma CategoryJsonListsItsItems(st: Store, c: CategoryId)
    requires Linked(st) && c in st.categories
    ensures var r := CategoryJsonOf(st, c);
            && ItemIds(r.items) == ItemsOf(st, c)
            && (forall k :: 0 <= k < |r.items| ==> r.items[k].id in ItemsOf(st, c) && r.items[k] == ItemJsonOf(st, r.items[k].id))
            && (forall j, k :: 0 <= j < k < |r.items| ==> r.items[j].id < r.items[k].id)
  {
  }

  /** The projections of the categories `ids`, in the same order. */
  function CategoryJsons(st: Store, ids: seq<CategoryId>): (r: seq<CategoryJson>)
    requires Linked(st)
    requires forall k :: 0 <= k < |ids| ==> ids[k] in st.categories
    ensures |r| == |ids|
    ensures forall k :: 0 <= k < |r| ==> r[k] == CategoryJsonOf(st, ids[k])
  {
    if ids == [] then [] else [CategoryJsonOf(st, ids[0])] + CategoryJsons(st, ids[1..])
  }

  /** `/catalog.json`: every category exactly once, in ascending key order, as its projection. */
  function CatalogJson(st: Store): (r: seq<CategoryJson>)
    requires Linked(st)
    ensures CategoryIds(r) == st.categories.Keys
    ensures forall k :: 0 <= k < |r| ==> r[k] == CategoryJsonOf(st, r[k].id)
    ensures forall j, k :: 0 <= j < k < |r| ==> r[j].id < r[k].id
  {
    var ids := Keys.Ascending(st.categories.Keys);
    assert forall k :: 0 <= k < |ids| ==> ids[k] in Keys.Members(ids);
    var cats := CategoryJsons(st, ids);
    ListsEveryCategory(st, ids, cats);
    cats
  }

  lemma ListsEveryCategory(st: Store, ids: seq<CategoryId>, cats: seq<CategoryJson>)
    requires Linked(st)
    requires Keys.Members(ids) == st.categories.Keys
    requires forall j, k :: 0 <= j < k < |ids| ==> ids[j] < ids[k]
    requires |cats| == |ids|
    requires forall k :: 0 <= k < |ids| ==> ids[k] in st.categories && cats[k] == CategoryJsonOf(st, ids[k])
    ensures CategoryIds(cats) == st.categories.Keys
    ensures forall k :: 0 <= k < |cats| ==> cats[k] == CategoryJsonOf(st, cats[k].id)
    ensures forall j, k :: 0 <= j < k < |cats| ==> cats[j].id < cats[k].id
  {
  }

  /** The user projection never depends on `social_id` or `email`: users that share id and nickname export alike. */
  lemma UserJsonHidesPrivateFields(id: UserId, u: User, v: User)
    requires u.nickname == v.nickname
    ensures UserJsonOf(id, u) == UserJsonOf(id, v)
  {
  }

  /** Two user projections agree exactly when the keys and the nicknames agree. */
  lemma UserJsonKeepsIdAndNickname(i: UserId, u: User, j: UserId, v: User)
    ensures UserJsonOf(i, u) == UserJsonOf(j, v) <==> i == j && u.nickname == v.nickname
  {
  }
}

=== FILE: session.dfy ===
/**
 * The session binds a browser to at most one local user id. Who the caller is
 * gets resolved on every request by looking the bound id up in the users
 * table: a session bound to an id that no longer resolves is anonymous.
 */
module Sessions {
  import opened Wrappers
  import opened Database

  datatype Session = Anonymous | Bound(uid: UserId)

  /** `load_user(id)`: the user stored under that primary key, if any. */
  function LoadUser(st: Store, id: UserId): (r: Option<User>)
    ensures r.Some? <==> id in st.users
    ensures r.Some? ==> r.value == st.users[id]
  {
    if id in st.users then Some(st.users[id]) else None
  }

  /** `current_user`: the caller's user id, or None for an anonymous caller. */
  function CurrentUser(st: Store, ses: Session): (r: Option<UserId>)
    ensures r.Some? ==> r.value in st.users && ses == Bound(r.value)
    ensures r.None? <==> ses.Anonymous? || ses.uid !in st.users
  {
    match ses
    case Anonymous => None
    case Bound(uid) => if LoadUser(st, uid).Some? then Some(uid) else None
  }

  /** `login_user(user)`: overwrites whatever identity the session held. */
  function Login(ses: Session, uid: UserId): (r: Session)
    ensures r.Bound? && r.uid == uid
  {
    Bound(uid)
  }

  /** `logout_user()`: clears the binding unconditionally. */
  function Logout(ses: Session): (r: Session)
    ensures r.Anonymous?
  {
    Anonymous
  }

  /**
   * After signing in as an existing user, the caller is that user, and the
   * session that results is the same whoever was bound before.
   */
  lemma LoginResolves(st: Store, before: Session, other: Session, uid: UserId)
    requires uid in st.users
    ensures CurrentUser(st, Login(before, uid)) == Some(uid)
    ensures Login(before, uid) == Login(other, uid)
  {
  }

  /** After logging out the caller is anonymous, and logging out twice is the same as once. */
  lemma LogoutResolvesAnonymous(st: Store, ses: Session)
    ensures CurrentUser(st, Logout(ses)).None?
    ensures Logout(Logout(ses)) == Logout(ses)
  {
  }

  /** A session whose id has no user row resolves to an anonymous caller. */
  lemma DanglingSessionIsAnonymous(st: Store, uid: UserId)
    requires LoadUser(st, uid).None?
    ensures CurrentUser(st, Bound(uid)).None?
  {
  }
}

=== FILE: wrappers.dfy ===
/** Optional values and results that carry an error, shared by every module of the model. */
module Wrappers {

  /** A value that may be absent: the model's stand-in for Python's `None`. */
  datatype Option<+T> = None | Some(value: T)

  /** The outcome of a storage operation that a database constraint can refuse. */
  datatype Result<+T, +E> = Ok(value: T) | Err(error: E)
}
